=== FILE: README.md ===
# Block store and chain relocation

A model of the zen-wallet block store and of the fork choice that the
relocation tests exercise.

The block store persists every block the node accepts. It keeps five indices keyed by
block identifier and a transaction table:

- block headers;
- each parent's set of children;
- each block's location tag (`Genesis`, `Main`, `Branch` or `Orphans`);
- each block's cumulative work;
- each block's set of transaction identifiers;
- the transaction table, from transaction identifier to transaction body.

`Put` writes one block to all of them at once. It stores a transaction only
when its identifier is not in the table yet, so a transaction shared by several
blocks is stored once. The remaining operations are lookups:

- `GetBlock` reassembles a block from its header and its transaction references;
- `Children` lists a parent's orphan or non-orphan children;
- `Transactions` lists a block's transactions with their identifiers;
- `HasChildren` tells whether a block has any child.

On top of the store, the chain (`Relocation`) keeps a tip. Each new block is
handled in one of these ways:

- it is rejected if it is already stored;
- before any tip exists, the configured genesis block is stored as `Main` and becomes the tip;
- any other block that arrives before a tip exists is held as an orphan;
- it is held as an orphan if its parent is unknown or is itself an orphan;
- otherwise it is stored as `Branch`;
- when its cumulative work is strictly greater than the tip's, the chain is reorganised.

Every block that is not rejected goes through `Put`, so its child-index entry,
its transaction references and its transactions are written whatever its tag.

A reorganisation tags the new side `Main` and the old side `Branch`. The new side is the
new block and its `Branch` ancestors. The old side is the old tip and its `Main`
ancestors down to the fork.

The relocation scenario (`RelocationScenario`) replays the two relocation tests
step by step on this model:

- two children of genesis arrive with equal work, so the first one stays the tip;
- a grandchild then arrives through the second child and displaces the first.

Modules:

- `Types` — identifiers, headers, transactions, blocks, location tags and their persisted codes.
- `BlockStore` — the store record and every store operation.
- `StoreFacts` — properties relating several store operations.
- `PutContents` — the indices `Put` writes independently of the tag and the work.
- `Relocation` — the chain, block handling and reorganisation, with their invariants.
- `RelocationScenario` — the two relocation tests.

The store is an immutable record of maps; `Put` and `SetLocation` return the
updated store. On an unknown key, the single-row reads (`HeaderOf`,
`GetLocation`, `TotalWork`) give `None`. `IsLocation` and `HasChildren` give
false. `GetBlock` gives `NotFound`. The set-valued reads give the empty set:
`Members` and `ChildKeys` directly, and `Children` and `Transactions` as
`Found` of the empty set. The
transaction hash is a parameter `hash: Tx -> Id`. The chain-level operations
are methods over immutable values: each returns a new chain and changes
nothing else.

## Model

| member | source | states |
|---|---|---|
| Types.CodeInjective | BlockChain/Store/BlockStore.cs:9-15 | the four location tags are persisted as four distinct integers, so comparing codes is comparing tags |
| BlockStore.IsLocation | BlockChain/Store/BlockStore.cs:93-96 | a block is in location `l` exactly when its stored location is `l`; an unknown block is in no location |
| BlockStore.GetLocation | BlockChain/Store/BlockStore.cs:98-101 | a block with a location entry reads back exactly that stored tag; a block without one has no location |
| BlockStore.TotalWork | BlockChain/Store/BlockStore.cs:108-111 | a block with a work entry reads back exactly that stored cumulative work; a block without one has none |
| BlockStore.HeaderOf | BlockChain/Store/BlockStore.cs:80 | a stored block reads back exactly its stored header; an unknown block has none |
| BlockStore.Members | BlockChain/Store/BlockStore.cs:132-137 | a set-valued index reads back the set stored under the key, and a key never written reads as the empty set (the same read serves lines 83, 115 and 126) |
| BlockStore.AddMembers | BlockChain/Store/BlockStore.cs:40-46 | inserting into a set-valued index merges the new members into the set already under the key, creating it if absent; every other key keeps its set (the same insert serves lines 69-75) |
| BlockStore.TxIds | BlockChain/Store/BlockStore.cs:55-61 | the block's reference set is exactly the hashes of its transactions: each transaction's hash is in it, and each member is the hash of one of them |
| BlockStore.SetLocation | BlockChain/Store/BlockStore.cs:103-106 | the block reads back the new tag; every other block's tag and every other index is unchanged |
| BlockStore.Put | BlockChain/Store/BlockStore.cs:32-76 | after the write, the block's header, location and work read back as written, and the block is among its parent's children. Its reference set gains the identifiers of its transactions, and each transaction is in the table. Existing transaction entries are never overwritten; every new entry is one of the block's transactions, stored under its own hash. No other block's entries change |
| BlockStore.StoreTxs | BlockChain/Store/BlockStore.cs:57-67 | the table afterwards holds the old identifiers plus those of the transactions; old entries keep their bodies, and a new entry holds a transaction of the list with that hash |
| BlockStore.StoreTxsKeepsFirst | BlockChain/Store/BlockStore.cs:57-67 | a new entry holds the first transaction of the list with its identifier; a later one with the same identifier does not replace it |
| BlockStore.GetBlock | BlockChain/Store/BlockStore.cs:78-91 | succeeds exactly when the header is stored and every referenced transaction resolves. The result carries the stored header and exactly the resolved transactions |
| BlockStore.ChildKeys | BlockChain/Store/BlockStore.cs:113-118 | a block is selected exactly when it is a child of the parent and its being tagged `Orphans` matches the `orphans` flag |
| BlockStore.Children | BlockChain/Store/BlockStore.cs:113-122 | succeeds exactly when every selected child can be read. The result holds exactly the selected children as `GetBlock` returns them |
| BlockStore.Transactions | BlockChain/Store/BlockStore.cs:124-130 | succeeds exactly when every reference resolves; the result pairs exactly the block's referenced identifiers with their stored bodies |
| BlockStore.HasChildren | BlockChain/Store/BlockStore.cs:132-137 | true exactly when the parent's child set is non-empty; a parent never written has none |
| StoreFacts.PutKeepsRefsResolve | BlockChain/Store/BlockStore.cs:55-75 | if every transaction reference resolved before a `Put`, it still does after it |
| StoreFacts.PutKeepsTxTableHashed | BlockChain/Store/BlockStore.cs:57-67 | `Put` keeps every transaction stored under its own hash |
| StoreFacts.PutKeepsIndexed | BlockChain/Store/BlockStore.cs:32-52 | `Put` keeps every stored block with a location and a work entry |
| StoreFacts.PutResolvesOwnTxs | BlockChain/Store/BlockStore.cs:55-75 | for a new block, its references are exactly its transactions' hashes, and each resolves to one of its transactions |
| StoreFacts.GetBlockAfterPut | BlockChain/Store/BlockStore.cs:32-91 | reading back a freshly written block gives its header and exactly the set of its transactions (round trip up to order) |
| StoreFacts.TransactionsAfterPut | BlockChain/Store/BlockStore.cs:55-75 | the transactions of a freshly written block are exactly its transactions, each keyed by its hash |
| StoreFacts.SharedTxStoredOnce | BlockChain/Store/BlockStore.cs:63-66 | a second block carrying a transaction with an identifier already stored, even a different body, leaves the entry the first block wrote; for a new identifier that entry is the first block's transaction |
| StoreFacts.StoredBlockReadable | BlockChain/Store/BlockStore.cs:78-91 | when every reference resolves, every stored block can be read |
| StoreFacts.ChildrenPartition | BlockChain/Store/BlockStore.cs:113-122 | the orphan and non-orphan children of a block are disjoint and together make up its child set |
| StoreFacts.PutAddsChild | BlockChain/Store/BlockStore.cs:36-49 | after `Put` the parent has children, and the block is an orphan child of it exactly when written as `Orphans` |
| PutContents.PutContentsIgnoreTagAndWork | BlockChain/Store/BlockStore.cs:32-76 | writing the same block with different tags or different work gives the same headers, child index, transaction references and transaction table; only the location and work entries differ |
| StoreFacts.IsLocationAfterSet | BlockChain/Store/BlockStore.cs:93-106 | after setting a tag, `IsLocation` holds for that block exactly for the new tag, and is unchanged for every other block |
| Relocation.HandleNewBlock | BlockChain/Tests/BlockChainRelocationTests.cs:54-75 | a stored block is rejected and nothing changes. The configured genesis becomes the `Main` tip. A block with an unknown or orphan parent becomes an orphan and the tip stays. Otherwise the block's work is its parent's plus its own, and it becomes the `Main` tip exactly when that work is strictly greater than the tip's. If it does not, it is `Branch` and no other tag changes. The tip remains the heaviest connected block and the chain stays valid. Every block that is not rejected leaves the child index, the transaction references and the transaction table exactly as `Put` writes them |
| Relocation.WroteContentsHoldsBlock | BlockChain/Store/BlockStore.cs:36-75 | a store holding those three indices as `Put` writes them has the block among its parent's children, references all of its transactions, stores each of them, and keeps every earlier transaction entry |
| Relocation.Attach | BlockChain/Tests/BlockChainRelocationTests.cs:62-75 | a block with a connected parent becomes the tip exactly when its work is strictly greater than the tip's. A block that extends the tip changes no other tag |
| Relocation.StoreBranch | BlockChain/Tests/BlockChainRelocationTests.cs:62-64 | a block with no more work than the tip is `Branch`, the tip and every other tag are unchanged, and the tip stays the heaviest |
| Relocation.Overtake | BlockChain/Tests/BlockChainRelocationTests.cs:70-75 | a block with more work than the tip becomes the `Main` tip, the store's tags are reorganised, and no connected block is disconnected |
| Relocation.HoldOrphan | BlockChain/Store/BlockStore.cs:32-52 | an orphan is stored with the `Orphans` tag through `Put`, so it is in its parent's child index and its transactions are written; the tip, every other tag and every connected block stay as they were |
| Relocation.Reorganize | BlockChain/Tests/BlockChainRelocationTests.cs:70-75 | the new side becomes `Main`, the old side becomes `Branch`, and every other tag and every other index is unchanged |
| Relocation.WalkWhile | BlockChain/Tests/BlockChainRelocationTests.cs:72-74 | the walk is a chain of parent links whose every block is stored, carries the given tag and is not the stop block; when it stops before its fuel runs out, the parent of its last block is unknown, has no location, carries another tag or is the stop block |
| Relocation.Retag | BlockChain/Store/BlockStore.cs:103-106 | every listed block gets the tag, and no other block or index changes |
| Relocation.ExtensionKeepsTags | BlockChain/Tests/BlockChainRelocationTests.cs:58-60 | when a block extends the `Main` tip, reorganising re-tags only that block |
| Relocation.ExtendWalks | BlockChain/Tests/BlockChainRelocationTests.cs:58-60 | extending the tip: the new side is the new block alone, the fork is the old tip, and the old side is empty |
| Relocation.PutKeepsValid | BlockChain/Store/BlockStore.cs:32-52 | writing a new block keeps the chain valid, whether the tip stays or the block becomes the `Main` tip |
| Relocation.ReorganizeKeepsConnected | BlockChain/Tests/BlockChainRelocationTests.cs:72-74 | reorganising only swaps blocks between `Main` and `Branch`, so the connected blocks are the same |
| Relocation.PutKeepsHeaviest | BlockChain/Tests/BlockChainRelocationTests.cs:62-64 | an orphan, or a branch block with no more work than the tip, leaves the tip the heaviest |
| Relocation.ReorganizeMakesHeaviest | BlockChain/Tests/BlockChainRelocationTests.cs:70-75 | a block heavier than the heaviest block is the heaviest once it is made the tip |
| RelocationScenario.OvertakeWalks | BlockChain/Tests/BlockChainRelocationTests.cs:70-74 | in the scenario, the new side is the grandchild and the second child, the fork is genesis, and the old side is the first child |
| RelocationScenario.ShouldAddBlocks | BlockChain/Tests/BlockChainRelocationTests.cs:51-65 | genesis is added as the `Main` tip. The first child is added as the `Main` tip with its header. The second child is added as `Branch`, and the first child stays the tip |
| RelocationScenario.ShouldReorganize | BlockChain/Tests/BlockChainRelocationTests.cs:67-76 | the grandchild is added, the first child becomes `Branch`, the second child and the grandchild become `Main`, and the grandchild is the tip with its header |

## Left out

- The transactional engine: every `Put` is applied atomically as plain map updates. Commit, rollback and the engine's storage are not modelled.
- Missing rows: `GetLocation`, `TotalWork` and `IsLocation` on an unknown block read the storage engine's row value, and the storage engine's value for a missing row is not modelled. Here they return `None`, and `IsLocation` is false. The tag codes start at 1, so a zero default would also make `IsLocation` false.
- `GetBlock` and `Children` on a block whose header or a referenced transaction is missing: the C# code dereferences an absent value. Here they return `NotFound`.
- `Transactions` on a reference that does not resolve: the C# code yields whatever the transaction store's `Get` returns for a missing key, which is not modelled. Here the whole result is `NotFound`. `Transactions` never reads the header, so a block with no stored header and no references gives `Found({})`, as the C# code gives an empty sequence.
- Transaction hashing: the Merkle transaction hasher is a parameter, assumed injective where a lemma needs it.
- Cumulative work is a `double` in the C# code and an unbounded `int` here. Rounding is not modelled.
- Hash-set iteration order: the child set, the reference set and the blocks `GetBlock` reassembles are sets. The order of a block's transactions is therefore not recoverable, and `GetBlockAfterPut` is a round trip up to order.
- `InsertHashSet` is modelled as adding members to the set stored under the key. Its engine is not part of this model.
- `Children` and `Transactions` are lazy `yield` sequences in the C# code. Here they are whole results, and fail if any element cannot be read.
- Relocation.HandleNewBlock: the chain's block handler is not part of this model. The model follows the relocation tests and the behaviour they rely on. Block validation, the orphan cascade when a parent arrives, the transaction pool and the wallet are left out.
- Relocation.HandleNewBlock: the `Genesis` tag is never assigned. The relocation tests expect genesis to be `Main`.
- Relocation.WalkWhile: a walk stops after `WalkFuel` steps, the number of stored blocks, which bounds it even on a parent cycle. The C# store's keys are hashes of the headers, which rules such cycles out. This model's keys are free, so two orphans can name each other as parent, and a walk over such a cycle is cut off by the fuel rather than excluded.
- Relocation.Reorganize: it does not prove that the `Main` blocks form a single chain from genesis to the tip. It proves that the tags change exactly on the new and old sides, and that the tip is `Main` and the heaviest connected block.
- The faucet's web controller is not part of this model: it only serves pages.

=== FILE: block_store.dfy ===
/** The block store: five block indices plus the transaction table, all keyed
    by identifier. The store is an immutable record of maps; `Put` and
    `SetLocation` return the updated store, and every other operation is a
    lookup. Each operation is atomic: the transactional engine the C# block
    store writes through is modelled as plain map updates applied together. */
module BlockStore {
  import opened Types

  datatype Store = Store(
    headers: map<Id, Header>,      // block headers, keyed by block id
    children: map<Id, set<Id>>,    // parent id -> ids of its children
    loc: map<Id, Location>,        // block id -> location tag
    work: map<Id, int>,            // block id -> cumulative work
    blockTxs: map<Id, set<Id>>,    // block id -> ids of its transactions
    txs: map<Id, Tx>)              // transaction id -> transaction body

  function Empty(): Store
  {
    Store(map[], map[], map[], map[], map[], map[])
  }

  // ---------------------------------------------------------------------
  // Set-valued columns

  /** The members stored under `k` in a set-valued column; a key that was
      never written reads as the empty set. */
  function Members(m: map<Id, set<Id>>, k: Id): (r: set<Id>)
    ensures k in m ==> r == m[k]
    ensures k !in m ==> r == {}
  {
    if k in m then m[k] else {}
  }

  /** Adds `xs` to the set stored under `k`, creating it if absent. */
  function AddMembers(m: map<Id, set<Id>>, k: Id, xs: set<Id>): (r: map<Id, set<Id>>)
    ensures Members(r, k) == Members(m, k) + xs
    ensures forall k' :: k' != k ==> Members(r, k') == Members(m, k')
    ensures r.Keys == m.Keys + {k}
  {
    m[k := Members(m, k) + xs]
  }

  // ---------------------------------------------------------------------
  // Transactions of a block

  /** The identifiers of the transactions `ts`. */
  function TxIds(ts: seq<Tx>, hash: Tx -> Id): (r: set<Id>)
    ensures forall t :: t in ts ==> hash(t) in r
    ensures forall h :: h in r ==> exists t :: t in ts && hash(t) == h
  {
    set t | t in ts :: hash(t)
  }

  /** Stores each transaction of `ts`, in order, under its identifier unless
      that identifier is already present. An existing entry is never
      overwritten, and a new entry holds the first transaction of `ts` with
      that identifier. */
  function StoreTxs(table: map<Id, Tx>, ts: seq<Tx>, hash: Tx -> Id): (r: map<Id, Tx>)
    ensures r.Keys == table.Keys + TxIds(ts, hash)
    ensures forall h :: h in table ==> r[h] == table[h]
    ensures forall h :: h in r && h !in table ==> r[h] in ts && hash(r[h]) == h
    decreases |ts|
  {
    if ts == [] then table
    else
      var h := hash(ts[0]);
      var table' := if h in table then table else table[h := ts[0]];
      var r := StoreTxs(table', ts[1..], hash);
      TxIdsCons(ts, hash);
      assert table'.Keys == table.Keys + {h};
      assert forall h' :: h' in r && h' !in table ==> r[h'] in ts && hash(r[h']) == h' by {
        forall h' | h' in r && h' !in table
          ensures r[h'] in ts && hash(r[h']) == h'
        {
          if h' in table' {
            assert r[h'] == ts[0];
          } else {
            assert r[h'] in ts[1..];
          }
        }
      }
      r
  }

  /** A new entry holds the first transaction of `ts` with its identifier:
      a later transaction with the same identifier does not replace it. */
  lemma {:induction false} StoreTxsKeepsFirst(table: map<Id, Tx>, ts: seq<Tx>, hash: Tx -> Id, i: int)
    requires 0 <= i < |ts| && hash(ts[i]) !in table && FirstWithId(ts, i, hash)
    ensures hash(ts[i]) in StoreTxs(table, ts, hash)
    ensures StoreTxs(table, ts, hash)[hash(ts[i])] == ts[i]
    decreases |ts|
  {
    var h := hash(ts[0]);
    var table' := if h in table then table else table[h := ts[0]];
    if i > 0 {
      assert ts[1..][i - 1] == ts[i];
      assert FirstWithId(ts[1..], i - 1, hash) by {
        forall j | 0 <= j < i - 1
          ensures hash(ts[1..][j]) != hash(ts[1..][i - 1])
        {
          assert ts[1..][j] == ts[j + 1];
        }
      }
      assert hash(ts[0]) != hash(ts[i]);
      StoreTxsKeepsFirst(table', ts[1..], hash, i - 1);
    }
  }

  /** No transaction before position `i` of `ts` has the identifier of
      `ts[i]`. */
  ghost predicate FirstWithId(ts: seq<Tx>, i: int, hash: Tx -> Id)
    requires 0 <= i < |ts|
  {
    forall j :: 0 <= j < i ==> hash(ts[j]) != hash(ts[i])
  }

  lemma TxIdsCons(ts: seq<Tx>, hash: Tx -> Id)
    requires ts != []
    ensures TxIds(ts, hash) == {hash(ts[0])} + TxIds(ts[1..], hash)
  {
    assert ts == [ts[0]] + ts[1..];
  }

  // ---------------------------------------------------------------------
  // Lookups

  /** The stored header of `k` (the base store's `Get`). */
  function HeaderOf(s: Store, k: Id): (r: Option<Header>)
    ensures k in s.headers ==> r == Some(s.headers[k])
    ensures k !in s.headers ==> r == None
  {
    if k in s.headers then Some(s.headers[k]) else None
  }

  function GetLocation(s: Store, k: Id): (r: Option<Location>)
    ensures k in s.loc ==> r == Some(s.loc[k])
    ensures k !in s.loc ==> r == None
  {
    if k in s.loc then Some(s.loc[k]) else None
  }

  /** Compares the persisted code of `k`'s location with the code of `l`;
      an unknown block is in no location. */
  function IsLocation(s: Store, k: Id, l: Location): (r: bool)
    ensures r <==> GetLocation(s, k) == Some(l)
  {
    CodeInjective(if k in s.loc then s.loc[k] else l, l);
    k in s.loc && Code(s.loc[k]) == Code(l)
  }

  function TotalWork(s: Store, k: Id): (r: Option<int>)
    ensures k in s.work ==> r == Some(s.work[k])
    ensures k !in s.work ==> r == None
  {
    if k in s.work then Some(s.work[k]) else None
  }

  // ---------------------------------------------------------------------
  // Mutations

  /** Sets the location of `k`; nothing else in the store changes. */
  function SetLocation(s: Store, k: Id, l: Location): (r: Store)
    ensures GetLocation(r, k) == Some(l)
    ensures forall k' :: k' != k ==> GetLocation(r, k') == GetLocation(s, k')
    ensures r.loc.Keys == s.loc.Keys + {k}
    ensures r.headers == s.headers && r.children == s.children && r.work == s.work
    ensures r.blockTxs == s.blockTxs && r.txs == s.txs
  {
    s.(loc := s.loc[k := l])
  }

  /** Writes block `b` across all indices at once: its header, its entry in
      its parent's child set, its location, its cumulative work, and its
      transaction references; each transaction body is stored only if its
      identifier is not stored yet. */
  function Put(s: Store, b: Keyed<Block>, l: Location, totalWork: int, hash: Tx -> Id): (r: Store)
    ensures HeaderOf(r, b.key) == Some(b.value.header)
    ensures forall k :: k != b.key ==> HeaderOf(r, k) == HeaderOf(s, k)
    ensures Members(r.children, b.value.header.parent) == Members(s.children, b.value.header.parent) + {b.key}
    ensures forall p :: p != b.value.header.parent ==> Members(r.children, p) == Members(s.children, p)
    ensures GetLocation(r, b.key) == Some(l)
    ensures forall k :: k != b.key ==> GetLocation(r, k) == GetLocation(s, k)
    ensures TotalWork(r, b.key) == Some(totalWork)
    ensures forall k :: k != b.key ==> TotalWork(r, k) == TotalWork(s, k)
    ensures Members(r.blockTxs, b.key) == Members(s.blockTxs, b.key) + TxIds(b.value.transactions, hash)
    ensures forall k :: k != b.key ==> Members(r.blockTxs, k) == Members(s.blockTxs, k)
    ensures forall t :: t in b.value.transactions ==> hash(t) in r.txs
    ensures forall h :: h in s.txs ==> h in r.txs && r.txs[h] == s.txs[h]
    ensures forall h :: h in r.txs && h !in s.txs ==> r.txs[h] in b.value.transactions && hash(r.txs[h]) == h
    ensures r.txs.Keys == s.txs.Keys + TxIds(b.value.transactions, hash)
  {
    var header := b.value.header;
    var s1 := s.(headers := s.headers[b.key := header],
                 children := AddMembers(s.children, header.parent, {b.key}));
    var s2 := SetLocation(s1, b.key, l);
    s2.(work := s2.work[b.key := totalWork],
        blockTxs := AddMembers(s2.blockTxs, b.key, TxIds(b.value.transactions, hash)),
        txs := StoreTxs(s2.txs, b.value.transactions, hash))
  }

  // ---------------------------------------------------------------------
  // Reads over several indices

  /** Reassembles block `k` from its header and its transaction references.
      It fails when the header is unknown or a referenced transaction is not
      in the transaction table. */
  function GetBlock(s: Store, k: Id): (r: Result<Keyed<BlockView>>)
    ensures r.Found? <==> k in s.headers && Members(s.blockTxs, k) <= s.txs.Keys
    ensures r.Found? ==> r.value.key == k && r.value.value.header == s.headers[k]
    ensures r.Found? ==> forall t :: t in r.value.value.transactions <==>
                                  exists h :: h in Members(s.blockTxs, k) && s.txs[h] == t
  {
    if k !in s.headers then NotFound
    else
      var ids := Members(s.blockTxs, k);
      if ids <= s.txs.Keys then Found(Keyed(k, BlockView(s.headers[k], set h | h in ids :: s.txs[h])))
      else NotFound
  }

  /** The children of `parent` that are orphans when `orphans` holds, and
      that are not orphans otherwise. */
  function ChildKeys(s: Store, parent: Id, orphans: bool): (r: set<Id>)
    ensures forall c :: c in r <==> c in Members(s.children, parent) && (GetLocation(s, c) == Some(Orphans)) == orphans
  {
    set c | c in Members(s.children, parent) && orphans == IsLocation(s, c, Orphans)
  }

  /** The blocks selected by `ChildKeys`; it fails when one of them cannot be
      reassembled. */
  function Children(s: Store, parent: Id, orphans: bool): (r: Result<set<Keyed<BlockView>>>)
    ensures r.Found? <==> forall c :: c in ChildKeys(s, parent, orphans) ==> GetBlock(s, c).Found?
    ensures r.Found? ==> forall kb: Keyed<BlockView> :: kb in r.value <==>
                                kb.key in ChildKeys(s, parent, orphans) && GetBlock(s, kb.key) == Found(kb)
  {
    var ks := ChildKeys(s, parent, orphans);
    if forall c | c in ks :: GetBlock(s, c).Found? then
      var r := set c | c in ks :: GetBlock(s, c).value;
      assert forall kb: Keyed<BlockView> :: kb.key in ks && GetBlock(s, kb.key) == Found(kb) ==> kb in r by {
        forall kb: Keyed<BlockView> | kb.key in ks && GetBlock(s, kb.key) == Found(kb)
          ensures kb in r
        {
          assert kb == GetBlock(s, kb.key).value;
        }
      }
      Found(r)
    else NotFound
  }

  /** The transactions referenced by `block`, each with its identifier; an
      unknown block has none. It fails when a reference does not resolve. */
  function Transactions(s: Store, block: Id): (r: Result<set<Keyed<Tx>>>)
    ensures r.Found? <==> Members(s.blockTxs, block) <= s.txs.Keys
    ensures r.Found? ==> forall kt: Keyed<Tx> :: kt in r.value <==>
                                kt.key in Members(s.blockTxs, block) && kt.key in s.txs && s.txs[kt.key] == kt.value
  {
    var ids := Members(s.blockTxs, block);
    if ids <= s.txs.Keys then Found(set h | h in ids :: Keyed(h, s.txs[h])) else NotFound
  }

  function HasChildren(s: Store, parent: Id): (r: bool)
    ensures r <==> exists c :: c in Members(s.children, parent)
  {
    |Members(s.children, parent)| > 0
  }

  // ---------------------------------------------------------------------
  // Store invariants

  /** Every stored block has a location and a cumulative work entry. */
  ghost predicate Indexed(s: Store)
  {
    forall k :: k in s.headers ==> k in s.loc && k in s.work
  }

  /** Every transaction is stored under its own identifier. */
  ghost predicate TxTableHashed(s: Store, hash: Tx -> Id)
  {
    forall h :: h in s.txs ==> hash(s.txs[h]) == h
  }

  /** Every transaction reference of every block resolves. */
  ghost predicate RefsResolve(s: Store)
  {
    forall k, h :: k in s.blockTxs && h in s.blockTxs[k] ==> h in s.txs
  }

  ghost predicate Injective(hash: Tx -> Id)
  {
    forall a, b :: hash(a) == hash(b) ==> a == b
  }
}

=== FILE: put_contents.dfy ===
/** What `Put` writes regardless of the tag and the work it is given. */
module PutContents {
  import opened Types
  import opened BlockStore

  /** The child index, the transaction references and the transaction table
      that `Put` writes do not depend on the tag or the work the block is
      written with: only the location and work indices see those. */
  lemma PutContentsIgnoreTagAndWork(s: Store, b: Keyed<Block>, l: Location, w: int,
                                    l': Location, w': int, hash: Tx -> Id)
    ensures Put(s, b, l, w, hash).children == Put(s, b, l', w', hash).children
    ensures Put(s, b, l, w, hash).blockTxs == Put(s, b, l', w', hash).blockTxs
    ensures Put(s, b, l, w, hash).txs == Put(s, b, l', w', hash).txs
    ensures Put(s, b, l, w, hash).headers == Put(s, b, l', w', hash).headers
  {
  }
}

=== FILE: relocation.dfy ===
/** Fork choice and reorganisation over the block store. A chain is a store,
    the identifier of the configured genesis block and the current tip. A new
    block extends, branches from, or displaces the best chain; it displaces
    the tip only with strictly more cumulative work, so on a tie the block
    seen first stays the tip. */
module Relocation {
  import opened Types
  import opened BlockStore
  import StoreFacts

  datatype Chain = Chain(store: Store, genesis: Id, tip: Option<Id>)

  datatype AddResult = Added | AddedOrphan | Rejected

  datatype Outcome = Outcome(chain: Chain, result: AddResult)

  /** What the chain keeps true between blocks: the stored blocks are
      exactly the blocks with a location, each has a work entry, the tip is a
      stored `Main` block, and before genesis arrives every block is an
      orphan. */
  ghost predicate Valid(c: Chain)
  {
    && Indexed(c.store)
    && (forall k :: k in c.store.loc ==> k in c.store.headers)
    && (c.tip.Some? ==> c.tip.value in c.store.headers && c.store.loc[c.tip.value] == Main)
    && (c.tip.None? ==> forall k :: k in c.store.loc ==> c.store.loc[k] == Orphans)
  }

  /** The blocks that are connected to the chain. */
  ghost predicate Connected(s: Store, k: Id)
  {
    k in s.loc && s.loc[k] != Orphans
  }

  /** Block `t` carries the most cumulative work of all connected blocks. */
  ghost predicate Heaviest(s: Store, t: Id)
  {
    t in s.work && forall k :: Connected(s, k) && k in s.work ==> s.work[k] <= s.work[t]
  }

  /** The tip is the heaviest connected block. */
  ghost predicate TipIsHeaviest(c: Chain)
  {
    c.tip.Some? ==> Heaviest(c.store, c.tip.value)
  }

  /** `r` holds the child index, the transaction references and the
      transaction table that writing `b` to `s` gives: `b` added to its
      parent's children, `b`'s transaction identifiers added to its
      references, and its transactions stored. */
  ghost predicate WroteContents(s: Store, b: Keyed<Block>, hash: Tx -> Id, r: Store)
  {
    && r.children == AddMembers(s.children, b.value.header.parent, {b.key})
    && r.blockTxs == AddMembers(s.blockTxs, b.key, TxIds(b.value.transactions, hash))
    && r.txs == StoreTxs(s.txs, b.value.transactions, hash)
  }

  /** Writing `b` with any tag and any work gives the same child index,
      transaction references and transaction table. */
  lemma PutWritesContents(s: Store, b: Keyed<Block>, l: Location, w: int, hash: Tx -> Id)
    ensures WroteContents(s, b, hash, Put(s, b, l, w, hash))
  {
  }

  /** A store holding what writing `b` gives has `b` among its parent's
      children, references `b`'s transactions from `b`, stores each of them,
      and keeps every transaction entry that was there before. */
  lemma WroteContentsHoldsBlock(s: Store, b: Keyed<Block>, hash: Tx -> Id, r: Store)
    requires WroteContents(s, b, hash, r)
    ensures b.key in Members(r.children, b.value.header.parent)
    ensures TxIds(b.value.transactions, hash) <= Members(r.blockTxs, b.key)
    ensures forall t :: t in b.value.transactions ==> hash(t) in r.txs
    ensures forall h :: h in s.txs ==> h in r.txs && r.txs[h] == s.txs[h]
  {
  }

  // ---------------------------------------------------------------------
  // Walking back along parent links

  /** The blocks from `k` back along parent links for as long as each is
      stored, tagged `l` and is not `stop`, at most `fuel` of them. */
  function WalkWhile(s: Store, k: Id, l: Location, stop: Option<Id>, fuel: nat): (path: seq<Id>)
    ensures |path| <= fuel
    ensures path == [] <==> fuel == 0 || k !in s.headers || k !in s.loc || s.loc[k] != l || stop == Some(k)
    ensures path != [] ==> path[0] == k
    ensures forall i :: 0 <= i < |path| ==>
              path[i] in s.headers && path[i] in s.loc && s.loc[path[i]] == l && stop != Some(path[i])
    ensures forall i :: 0 < i < |path| ==> path[i] == s.headers[path[i - 1]].parent
    ensures 0 < |path| < fuel ==>
              var p := s.headers[path[|path| - 1]].parent;
              p !in s.headers || p !in s.loc || s.loc[p] != l || stop == Some(p)
    decreases fuel
  {
    if fuel == 0 || k !in s.headers || k !in s.loc || s.loc[k] != l || stop == Some(k) then []
    else
      var rest := WalkWhile(s, s.headers[k].parent, l, stop, fuel - 1);
      assert rest != [] ==> ([k] + rest)[|rest|] == rest[|rest| - 1];
      [k] + rest
  }

  /** Re-tags every block of `ks` as `l`; no other block and no other index
      changes. */
  function Retag(s: Store, ks: seq<Id>, l: Location): (r: Store)
    ensures forall k :: k in ks ==> GetLocation(r, k) == Some(l)
    ensures forall k :: k !in ks ==> GetLocation(r, k) == GetLocation(s, k)
    ensures r.headers == s.headers && r.children == s.children && r.work == s.work
    ensures r.blockTxs == s.blockTxs && r.txs == s.txs
    decreases |ks|
  {
    if ks == [] then s
    else
      var r := Retag(SetLocation(s, ks[0], l), ks[1..], l);
      assert forall k :: k in ks ==> k == ks[0] || k in ks[1..];
      r
  }

  /** Makes `newTip` the head of the main chain. The new side is `newTip` and
      its `Branch` ancestors; the fork is the parent of the oldest of them.
      The old side is the old tip and its `Main` ancestors down to, and not
      including, the fork. The old side becomes `Branch`, the new side
      becomes `Main`, and the fork is left as it is. */
  method Reorganize(s: Store, newTip: Id, oldTip: Id) returns (r: Store)
    requires newTip in s.headers && newTip in s.loc && s.loc[newTip] == Branch
    ensures GetLocation(r, newTip) == Some(Main)
    ensures Reorganized(s, newTip, oldTip, r)
    ensures OnlyTagsDiffer(s, r)
  {
    var newSide := NewSide(s, newTip);
    var oldSide := OldSide(s, newTip, oldTip);
    assert newTip in s.headers.Keys;
    assert newSide[0] == newTip;
    assert forall i :: 0 <= i < |newSide| ==> s.loc[newSide[i]] == Branch;
    assert forall i :: 0 <= i < |oldSide| ==> s.loc[oldSide[i]] == Main;
    r := Retag(Retag(s, oldSide, Branch), newSide, Main);
    forall k
      ensures k in r.loc <==> k in s.loc
    {
      if k in newSide {
        var i :| 0 <= i < |newSide| && newSide[i] == k;
      } else if k in oldSide {
        var i :| 0 <= i < |oldSide| && oldSide[i] == k;
      } else {
        assert GetLocation(r, k) == GetLocation(s, k);
      }
    }
  }

  /** `r` differs from `s` at most in the tags of blocks that already had
      one. */
  ghost predicate OnlyTagsDiffer(s: Store, r: Store)
  {
    && r.loc.Keys == s.loc.Keys
    && r.headers == s.headers && r.children == s.children && r.work == s.work
    && r.blockTxs == s.blockTxs && r.txs == s.txs
  }

  /** `r` carries the tags of `s` after `newTip` displaced `oldTip`: the new
      side is `Main`, the old side is `Branch`, every other block keeps its
      tag. */
  ghost predicate Reorganized(s: Store, newTip: Id, oldTip: Id, r: Store)
  {
    && (forall k :: k in NewSide(s, newTip) ==> GetLocation(r, k) == Some(Main))
    && (forall k :: k in OldSide(s, newTip, oldTip) ==> GetLocation(r, k) == Some(Branch))
    && (forall k :: k !in NewSide(s, newTip) && k !in OldSide(s, newTip, oldTip) ==>
          GetLocation(r, k) == GetLocation(s, k))
  }

  /** The fuel for a walk: a walk that repeats no block visits at most every
      stored block once. */
  function WalkFuel(s: Store): nat
  {
    |s.headers|
  }

  function NewSide(s: Store, newTip: Id): (path: seq<Id>)
  {
    WalkWhile(s, newTip, Branch, None, WalkFuel(s))
  }

  /** Where the new side meets the main chain: the parent of its oldest
      block. */
  function Fork(s: Store, newTip: Id): Id
  {
    var newSide := NewSide(s, newTip);
    if newSide == [] then newTip else s.headers[newSide[|newSide| - 1]].parent
  }

  function OldSide(s: Store, newTip: Id, oldTip: Id): (path: seq<Id>)
  {
    WalkWhile(s, oldTip, Main, Some(Fork(s, newTip)), WalkFuel(s))
  }

  // ---------------------------------------------------------------------
  // Adding a block

  /** Handles a newly arrived, already validated block `b` whose own work is
      `own`:
      - a block already stored is rejected and nothing changes;
      - before any tip exists, the configured genesis block becomes `Main`
        and the tip, and any other block is held as an orphan;
      - a block whose parent is unknown or itself an orphan is held as an
        orphan;
      - otherwise its cumulative work is its parent's plus `own`; it is stored
        as `Branch` and, when that work is strictly greater than the tip's,
        the chain is reorganised so that it is the new `Main` tip. */
  method HandleNewBlock(c: Chain, b: Keyed<Block>, own: nat, hash: Tx -> Id) returns (r: Outcome)
    requires Valid(c)
    ensures Valid(r.chain)
    ensures TipIsHeaviest(c) ==> TipIsHeaviest(r.chain)
    ensures r.chain.genesis == c.genesis
    ensures forall k :: k != b.key ==> HeaderOf(r.chain.store, k) == HeaderOf(c.store, k)
    ensures forall k :: k != b.key ==> TotalWork(r.chain.store, k) == TotalWork(c.store, k)
    ensures forall k :: Connected(c.store, k) ==> Connected(r.chain.store, k)
    ensures r.chain.tip == c.tip ==>
              forall k :: k != b.key ==> GetLocation(r.chain.store, k) == GetLocation(c.store, k)
    ensures r.result == Rejected <==> b.key in c.store.headers
    ensures b.key !in c.store.headers && c.tip.None? && b.key == c.genesis ==>
              r.result == Added && r.chain.tip == Some(b.key)
    ensures r.result == AddedOrphan <==>
              && b.key !in c.store.headers
              && !(c.tip.None? && b.key == c.genesis)
              && (c.tip.None? || !Connected(c.store, b.value.header.parent))
    ensures r.result != Rejected && (r.result == AddedOrphan || c.tip.None?) ==>
              TotalWork(r.chain.store, b.key) == Some(own)
    ensures r.result == Rejected ==> r.chain == c
    ensures r.result != Rejected ==> WroteContents(c.store, b, hash, r.chain.store)
    ensures r.result != Rejected ==> HeaderOf(r.chain.store, b.key) == Some(b.value.header)
    ensures r.result == AddedOrphan <==> r.result != Rejected && GetLocation(r.chain.store, b.key) == Some(Orphans)
    ensures r.result == AddedOrphan ==> r.chain.tip == c.tip
    ensures r.result == Added ==> (r.chain.tip == Some(b.key) <==> GetLocation(r.chain.store, b.key) == Some(Main))
    ensures r.result == Added && r.chain.tip != Some(b.key) ==>
              r.chain.tip == c.tip && GetLocation(r.chain.store, b.key) == Some(Branch)
    ensures r.result == Added && c.tip.Some? ==>
              && b.value.header.parent in c.store.work && c.tip.value in c.store.work
              && TotalWork(r.chain.store, b.key) == Some(c.store.work[b.value.header.parent] + own)
              && (r.chain.tip == Some(b.key) <==>
                    c.store.work[b.value.header.parent] + own > c.store.work[c.tip.value])
    ensures c.tip.Some? && b.value.header.parent == c.tip.value ==>
              forall k :: k != b.key ==> GetLocation(r.chain.store, k) == GetLocation(c.store, k)
    ensures r.result == Added && c.tip.Some? && r.chain.tip == Some(b.key) ==>
              && b.value.header.parent in c.store.work
              && Reorganized(Put(c.store, b, Branch, c.store.work[b.value.header.parent] + own, hash),
                             b.key, c.tip.value, r.chain.store)
  {
    var s := c.store;
    var parent := b.value.header.parent;
    if b.key in s.headers {
      r := Outcome(c, Rejected);
    } else if c.tip.None? && b.key == c.genesis {
      var s' := Put(s, b, Main, own, hash);
      PutKeepsValid(c, b, Main, own, hash);
      FirstConnectedIsHeaviest(s, b, Main, own, hash);
      PutWritesContents(s, b, Main, own, hash);
      r := Outcome(Chain(s', c.genesis, Some(b.key)), Added);
    } else if c.tip.None? || parent !in s.headers || s.loc[parent] == Orphans {
      var held := HoldOrphan(c, b, own, hash);
      r := Outcome(held, AddedOrphan);
    } else {
      var attached := Attach(c, b, s.work[parent] + own, hash);
      r := Outcome(attached, Added);
    }
  }

  /** Stores `b` as an orphan with work `w`; the tip does not change. */
  method HoldOrphan(c: Chain, b: Keyed<Block>, w: int, hash: Tx -> Id) returns (r: Chain)
    requires Valid(c) && b.key !in c.store.headers
    ensures Valid(r)
    ensures TipIsHeaviest(c) ==> TipIsHeaviest(r)
    ensures r.genesis == c.genesis && r.tip == c.tip
    ensures HeaderOf(r.store, b.key) == Some(b.value.header)
    ensures GetLocation(r.store, b.key) == Some(Orphans)
    ensures TotalWork(r.store, b.key) == Some(w)
    ensures WroteContents(c.store, b, hash, r.store)
    ensures forall k :: k != b.key ==> HeaderOf(r.store, k) == HeaderOf(c.store, k)
    ensures forall k :: k != b.key ==> TotalWork(r.store, k) == TotalWork(c.store, k)
    ensures forall k :: k != b.key ==> GetLocation(r.store, k) == GetLocation(c.store, k)
    ensures forall k :: Connected(c.store, k) ==> Connected(r.store, k)
  {
    var s' := Put(c.store, b, Orphans, w, hash);
    PutKeepsValid(c, b, Orphans, w, hash);
    PutWritesContents(c.store, b, Orphans, w, hash);
    if c.tip.Some? {
      PutKeepsHeaviest(c.store, b, Orphans, w, hash, c.tip.value);
    }
    r := Chain(s', c.genesis, c.tip);
  }

  /** Stores `b`, whose parent is connected and whose cumulative work is `w`,
      as a branch block; when `w` is strictly greater than the tip's work the
      chain is reorganised and `b` becomes the `Main` tip. */
  method Attach(c: Chain, b: Keyed<Block>, w: int, hash: Tx -> Id) returns (r: Chain)
    requires Valid(c) && c.tip.Some? && b.key !in c.store.headers
    ensures Valid(r)
    ensures TipIsHeaviest(c) ==> TipIsHeaviest(r)
    ensures r.genesis == c.genesis
    ensures HeaderOf(r.store, b.key) == Some(b.value.header)
    ensures TotalWork(r.store, b.key) == Some(w)
    ensures WroteContents(c.store, b, hash, r.store)
    ensures c.tip.value in c.store.work
    ensures r.tip == Some(b.key) <==> w > c.store.work[c.tip.value]
    ensures r.tip == Some(b.key) ==> GetLocation(r.store, b.key) == Some(Main)
    ensures r.tip != Some(b.key) ==> r.tip == c.tip && GetLocation(r.store, b.key) == Some(Branch)
    ensures forall k :: k != b.key ==> HeaderOf(r.store, k) == HeaderOf(c.store, k)
    ensures forall k :: k != b.key ==> TotalWork(r.store, k) == TotalWork(c.store, k)
    ensures forall k :: Connected(c.store, k) ==> Connected(r.store, k)
    ensures r.tip == c.tip ==> forall k :: k != b.key ==> GetLocation(r.store, k) == GetLocation(c.store, k)
    ensures r.tip == Some(b.key) ==> Reorganized(Put(c.store, b, Branch, w, hash), b.key, c.tip.value, r.store)
    ensures b.value.header.parent == c.tip.value ==>
              forall k :: k != b.key ==> GetLocation(r.store, k) == GetLocation(c.store, k)
  {
    if w > c.store.work[c.tip.value] {
      r := Overtake(c, b, w, hash);
    } else {
      r := StoreBranch(c, b, w, hash);
    }
  }

  /** Stores `b` as a branch block with no more work than the tip. */
  method StoreBranch(c: Chain, b: Keyed<Block>, w: int, hash: Tx -> Id) returns (r: Chain)
    requires Valid(c) && c.tip.Some? && b.key !in c.store.headers
    requires c.tip.value in c.store.work && w <= c.store.work[c.tip.value]
    ensures Valid(r)
    ensures TipIsHeaviest(c) ==> TipIsHeaviest(r)
    ensures r.genesis == c.genesis && r.tip == c.tip
    ensures HeaderOf(r.store, b.key) == Some(b.value.header)
    ensures TotalWork(r.store, b.key) == Some(w)
    ensures GetLocation(r.store, b.key) == Some(Branch)
    ensures WroteContents(c.store, b, hash, r.store)
    ensures forall k :: k != b.key ==> HeaderOf(r.store, k) == HeaderOf(c.store, k)
    ensures forall k :: k != b.key ==> TotalWork(r.store, k) == TotalWork(c.store, k)
    ensures forall k :: k != b.key ==> GetLocation(r.store, k) == GetLocation(c.store, k)
    ensures forall k :: Connected(c.store, k) ==> Connected(r.store, k)
  {
    var s' := Put(c.store, b, Branch, w, hash);
    PutKeepsValid(c, b, Branch, w, hash);
    PutKeepsHeaviest(c.store, b, Branch, w, hash, c.tip.value);
    PutWritesContents(c.store, b, Branch, w, hash);
    r := Chain(s', c.genesis, c.tip);
  }

  /** Stores `b`, which carries more work than the tip, and reorganises the
      chain so that `b` is the `Main` tip. */
  method Overtake(c: Chain, b: Keyed<Block>, w: int, hash: Tx -> Id) returns (r: Chain)
    requires Valid(c) && c.tip.Some? && b.key !in c.store.headers
    requires c.tip.value in c.store.work && w > c.store.work[c.tip.value]
    ensures Valid(r)
    ensures TipIsHeaviest(c) ==> TipIsHeaviest(r)
    ensures r.genesis == c.genesis && r.tip == Some(b.key)
    ensures HeaderOf(r.store, b.key) == Some(b.value.header)
    ensures TotalWork(r.store, b.key) == Some(w)
    ensures GetLocation(r.store, b.key) == Some(Main)
    ensures WroteContents(c.store, b, hash, r.store)
    ensures forall k :: k != b.key ==> HeaderOf(r.store, k) == HeaderOf(c.store, k)
    ensures forall k :: k != b.key ==> TotalWork(r.store, k) == TotalWork(c.store, k)
    ensures forall k :: Connected(c.store, k) ==> Connected(r.store, k)
    ensures Reorganized(Put(c.store, b, Branch, w, hash), b.key, c.tip.value, r.store)
    ensures b.value.header.parent == c.tip.value ==>
              forall k :: k != b.key ==> GetLocation(r.store, k) == GetLocation(c.store, k)
  {
    var tip := c.tip.value;
    var s' := Put(c.store, b, Branch, w, hash);
    assert HeaderOf(s', b.key).Some? && GetLocation(s', b.key) == Some(Branch);
    var s'' := Reorganize(s', b.key, tip);
    OvertakeKeepsValid(c, b, w, hash, s'');
    OvertakeKeepsConnected(c, b, w, hash, s'');
    OvertakeFrames(c, b, w, hash, s'');
    PutWritesContents(c.store, b, Branch, w, hash);
    if b.value.header.parent == tip {
      ExtensionKeepsTags(c.store, b, w, hash, s'');
    }
    r := Chain(s'', c.genesis, Some(b.key));
  }

  /** Reorganising after a block with more work than the tip gives a valid
      chain whose tip is that block, and keeps the tip the heaviest. */
  lemma OvertakeKeepsValid(c: Chain, b: Keyed<Block>, w: int, hash: Tx -> Id, r: Store)
    requires Valid(c) && c.tip.Some? && b.key !in c.store.headers
    requires c.tip.value in c.store.work && w > c.store.work[c.tip.value]
    requires var s' := Put(c.store, b, Branch, w, hash);
             && Reorganized(s', b.key, c.tip.value, r) && OnlyTagsDiffer(s', r)
             && GetLocation(r, b.key) == Some(Main)
    ensures Valid(Chain(r, c.genesis, Some(b.key)))
    ensures TipIsHeaviest(c) ==> Heaviest(r, b.key)
  {
    var s := c.store;
    var tip := c.tip.value;
    var s' := Put(s, b, Branch, w, hash);
    PutKeepsValid(c, b, Branch, w, hash);
    assert HeaderOf(s', b.key).Some? && GetLocation(s', b.key) == Some(Branch);
    assert GetLocation(s', tip) == GetLocation(s, tip);
    ReorganizeKeepsIndexed(s', r);
    ReorganizeMakesHeaviest(s, b, w, hash, tip, r);
  }

  /** Reorganising after a block with more work than the tip writes only the
      new block's header and work. */
  lemma OvertakeFrames(c: Chain, b: Keyed<Block>, w: int, hash: Tx -> Id, r: Store)
    requires OnlyTagsDiffer(Put(c.store, b, Branch, w, hash), r)
    ensures HeaderOf(r, b.key) == Some(b.value.header)
    ensures TotalWork(r, b.key) == Some(w)
    ensures forall k :: k != b.key ==> HeaderOf(r, k) == HeaderOf(c.store, k)
    ensures forall k :: k != b.key ==> TotalWork(r, k) == TotalWork(c.store, k)
  {
  }

  /** Reorganising after a block with more work than the tip disconnects no
      block. */
  lemma OvertakeKeepsConnected(c: Chain, b: Keyed<Block>, w: int, hash: Tx -> Id, r: Store)
    requires Valid(c) && c.tip.Some? && b.key !in c.store.headers
    requires var s' := Put(c.store, b, Branch, w, hash);
             Reorganized(s', b.key, c.tip.value, r) && OnlyTagsDiffer(s', r)
    ensures forall k :: Connected(c.store, k) ==> Connected(r, k)
  {
    var s := c.store;
    var s' := Put(s, b, Branch, w, hash);
    assert HeaderOf(s', b.key).Some? && GetLocation(s', b.key) == Some(Branch);
    forall k | Connected(s, k)
      ensures Connected(s', k)
    {
      PutConnected(s, b, Branch, w, hash, k);
    }
    ReorganizeKeepsConnected(s', b.key, c.tip.value, r);
  }

  /** Re-tagging after a block that extends the `Main` tip leaves every
      other block's tag as it was before the block was written. */
  lemma ExtensionKeepsTags(s: Store, b: Keyed<Block>, w: int, hash: Tx -> Id, r: Store)
    requires b.value.header.parent in s.loc && s.loc[b.value.header.parent] == Main
    requires b.key != b.value.header.parent
    requires Reorganized(Put(s, b, Branch, w, hash), b.key, b.value.header.parent, r)
    ensures forall k :: k != b.key ==> GetLocation(r, k) == GetLocation(s, k)
  {
    var tip := b.value.header.parent;
    var s' := Put(s, b, Branch, w, hash);
    assert HeaderOf(s', b.key).Some? && GetLocation(s', b.key) == Some(Branch);
    assert GetLocation(s', tip) == Some(Main);
    ExtensionRetagsOnlyItself(s', b.key, tip, r);
  }

  /** When `newTip` is a `Branch` child of the `Main` block `tip`, the
      reorganisation re-tags `newTip` alone. */
  lemma ExtensionRetagsOnlyItself(s: Store, newTip: Id, tip: Id, r: Store)
    requires newTip in s.headers && newTip in s.loc && s.loc[newTip] == Branch
    requires s.headers[newTip].parent == tip
    requires tip in s.loc && s.loc[tip] == Main
    requires Reorganized(s, newTip, tip, r)
    ensures forall k :: k != newTip ==> GetLocation(r, k) == GetLocation(s, k)
  {
    ExtendWalks(s, newTip, tip);
  }

  /** Extending the `Main` tip: the new side is the new block alone, and the
      old side is empty since the old tip is the fork. */
  lemma ExtendWalks(s: Store, newTip: Id, tip: Id)
    requires newTip in s.headers && newTip in s.loc && s.loc[newTip] == Branch
    requires s.headers[newTip].parent == tip
    requires tip in s.loc && s.loc[tip] == Main
    ensures NewSide(s, newTip) == [newTip]
    ensures Fork(s, newTip) == tip
    ensures OldSide(s, newTip, tip) == []
  {
    assert newTip in s.headers.Keys;
    assert WalkWhile(s, tip, Branch, None, WalkFuel(s) - 1) == [];
  }

  // ---------------------------------------------------------------------
  // Proofs about adding a block

  /** Writing a new block keeps the chain valid as long as the tip stays. */
  lemma PutKeepsValid(c: Chain, b: Keyed<Block>, l: Location, w: int, hash: Tx -> Id)
    requires Valid(c)
    requires b.key !in c.store.headers
    ensures var s' := Put(c.store, b, l, w, hash);
            && (c.tip.Some? || l == Orphans ==> Valid(Chain(s', c.genesis, c.tip)))
            && (l == Main ==> Valid(Chain(s', c.genesis, Some(b.key))))
  {
    var s' := Put(c.store, b, l, w, hash);
    StoreFacts.PutKeepsIndexed(c.store, b, l, w, hash);
    forall k | k in s'.loc
      ensures k in s'.headers
    {
      if k != b.key {
        assert GetLocation(s', k) == GetLocation(c.store, k);
        assert HeaderOf(s', k) == HeaderOf(c.store, k);
      }
    }
    if c.tip.Some? {
      assert GetLocation(s', c.tip.value) == GetLocation(c.store, c.tip.value);
    } else if l == Orphans {
      forall k | k in s'.loc
        ensures s'.loc[k] == Orphans
      {
        if k != b.key {
          assert GetLocation(s', k) == GetLocation(c.store, k);
        }
      }
    }
  }

  /** Re-tagging keeps every stored block indexed. */
  lemma ReorganizeKeepsIndexed(s: Store, r: Store)
    requires Indexed(s) && OnlyTagsDiffer(s, r)
    ensures Indexed(r)
  {
    forall k | k in r.headers
      ensures k in r.loc && k in r.work
    {
      assert k in s.loc.Keys;
    }
  }

  /** Re-tagging only swaps blocks between `Main` and `Branch`: the set of
      connected blocks stays the same. */
  lemma ReorganizeKeepsConnected(s: Store, newTip: Id, oldTip: Id, r: Store)
    requires Reorganized(s, newTip, oldTip, r)
    ensures forall k :: Connected(r, k) <==> Connected(s, k)
  {
    var newSide := NewSide(s, newTip);
    var oldSide := OldSide(s, newTip, oldTip);
    forall k
      ensures Connected(r, k) <==> Connected(s, k)
    {
      if k in newSide {
        var i :| 0 <= i < |newSide| && newSide[i] == k;
        assert s.loc[k] == Branch;
      } else if k in oldSide {
        var i :| 0 <= i < |oldSide| && oldSide[i] == k;
        assert s.loc[k] == Main;
      } else {
        assert GetLocation(r, k) == GetLocation(s, k);
      }
    }
  }

  /** The connected blocks after `Put` are those before, apart from the
      written block, which is connected exactly when not tagged `Orphans`;
      only its work changes. */
  lemma PutConnected(s: Store, b: Keyed<Block>, l: Location, w: int, hash: Tx -> Id, k: Id)
    ensures var r := Put(s, b, l, w, hash);
            && (Connected(r, k) <==> if k == b.key then l != Orphans else Connected(s, k))
            && (k in r.work <==> k == b.key || k in s.work)
            && (k != b.key && k in s.work ==> r.work[k] == s.work[k])
            && (k == b.key ==> r.work[k] == w)
  {
    var r := Put(s, b, l, w, hash);
    assert GetLocation(r, k) == if k == b.key then Some(l) else GetLocation(s, k);
    assert TotalWork(r, k) == if k == b.key then Some(w) else TotalWork(s, k);
  }

  /** Holding a block as an orphan, or storing it as a branch with no more
      work than the tip, leaves the tip the heaviest. */
  lemma PutKeepsHeaviest(s: Store, b: Keyed<Block>, l: Location, w: int, hash: Tx -> Id, tip: Id)
    requires b.key != tip
    requires l == Orphans || (tip in s.work && w <= s.work[tip])
    ensures Heaviest(s, tip) ==> Heaviest(Put(s, b, l, w, hash), tip)
  {
    if Heaviest(s, tip) {
      var r := Put(s, b, l, w, hash);
      PutConnected(s, b, l, w, hash, tip);
      forall k | Connected(r, k) && k in r.work
        ensures r.work[k] <= r.work[tip]
      {
        PutConnected(s, b, l, w, hash, k);
      }
    }
  }

  /** The first block written to a store with no connected block is the
      heaviest connected block. */
  lemma FirstConnectedIsHeaviest(s: Store, b: Keyed<Block>, l: Location, w: int, hash: Tx -> Id)
    requires forall k :: k in s.loc ==> s.loc[k] == Orphans
    ensures Heaviest(Put(s, b, l, w, hash), b.key)
  {
    var r := Put(s, b, l, w, hash);
    PutConnected(s, b, l, w, hash, b.key);
    forall k | Connected(r, k) && k in r.work
      ensures r.work[k] <= r.work[b.key]
    {
      PutConnected(s, b, l, w, hash, k);
    }
  }

  /** A block with more work than the heaviest block, once made the tip by
      reorganisation, is the heaviest. */
  lemma ReorganizeMakesHeaviest(s: Store, b: Keyed<Block>, w: int, hash: Tx -> Id, tip: Id, r: Store)
    requires tip in s.work && w > s.work[tip]
    requires var s' := Put(s, b, Branch, w, hash);
             Reorganized(s', b.key, tip, r) && OnlyTagsDiffer(s', r)
    ensures Heaviest(s, tip) ==> Heaviest(r, b.key)
  {
    var s' := Put(s, b, Branch, w, hash);
    PutConnected(s, b, Branch, w, hash, b.key);
    if Heaviest(s, tip) {
      ReorganizeKeepsConnected(s', b.key, tip, r);
      forall k | Connected(r, k) && k in r.work
        ensures r.work[k] <= r.work[b.key]
      {
        PutConnected(s, b, Branch, w, hash, k);
      }
    }
  }
}

=== FILE: relocation_scenario.dfy ===
/** The relocation scenario: a genesis block, two children of it arriving
    one after the other, and a grandchild through the second child that
    overtakes the first. Each block adds one unit of work except genesis,
    which adds none. */
module RelocationScenario {
  import opened Types
  import opened BlockStore
  import opened Relocation

  const GenesisId: Id := [0x67]
  const Block1Id: Id := [1]
  const Block2Id: Id := [2]
  const Block3Id: Id := [3]

  /** The parent named by the genesis header; never stored as a block. */
  const NoParent: Id := [0, 0]

  /** A stand-in for the transaction hash; the scenario's blocks carry no
      transactions, so any function of the right type serves. */
  function TxHash(t: Tx): Id
  {
    t.body
  }

  function GenesisBlock(): Keyed<Block>
  {
    Keyed(GenesisId, Block(Header(NoParent, [0x67]), []))
  }

  /** Two children of genesis that differ only in their opaque fields, and a
      child of the second one. */
  function Block1(): Keyed<Block>
  {
    Keyed(Block1Id, Block(Header(GenesisId, [1]), []))
  }

  function Block2(): Keyed<Block>
  {
    Keyed(Block2Id, Block(Header(GenesisId, [2]), []))
  }

  function Block3(): Keyed<Block>
  {
    Keyed(Block3Id, Block(Header(Block2Id, [3]), []))
  }

  function Start(): (c: Chain)
    ensures Valid(c) && TipIsHeaviest(c)
  {
    Chain(Empty(), GenesisId, None)
  }

  /** A store holding two distinct blocks gives a walk fuel for two steps. */
  lemma FuelForTwo(s: Store, a: Id, b: Id)
    requires a in s.headers && b in s.headers && a != b
    ensures WalkFuel(s) >= 2
  {
    var rest := s.headers.Keys - {a};
    assert b in rest;
    assert |s.headers.Keys| == |rest| + 1;
  }

  /** The scenario's reorganisation: the new side is the grandchild and the
      second child, they meet the main chain at genesis, and the old side is
      the first child. */
  lemma OvertakeWalks(s: Store)
    requires Block3Id in s.headers && Block2Id in s.headers && Block1Id in s.headers
    requires s.headers[Block3Id].parent == Block2Id
    requires s.headers[Block2Id].parent == GenesisId
    requires s.headers[Block1Id].parent == GenesisId
    requires Block3Id in s.loc && s.loc[Block3Id] == Branch
    requires Block2Id in s.loc && s.loc[Block2Id] == Branch
    requires Block1Id in s.loc && s.loc[Block1Id] == Main
    requires GenesisId in s.loc && s.loc[GenesisId] == Main
    ensures NewSide(s, Block3Id) == [Block3Id, Block2Id]
    ensures Fork(s, Block3Id) == GenesisId
    ensures OldSide(s, Block3Id, Block1Id) == [Block1Id]
  {
    FuelForTwo(s, Block3Id, Block2Id);
    var fuel := WalkFuel(s);
    assert WalkWhile(s, GenesisId, Branch, None, fuel - 2) == [];
    assert WalkWhile(s, Block2Id, Branch, None, fuel - 1) == [Block2Id];
    assert WalkWhile(s, GenesisId, Main, Some(GenesisId), fuel - 1) == [];
  }

  /** The chain after genesis: genesis alone, `Main`, the tip, with no work. */
  ghost predicate AfterGenesis(c: Chain)
  {
    && Valid(c) && c.genesis == GenesisId
    && c.tip == Some(GenesisId)
    && GetLocation(c.store, GenesisId) == Some(Main)
    && TotalWork(c.store, GenesisId) == Some(0)
    && forall k :: k != GenesisId ==> HeaderOf(c.store, k) == None
  }

  /** The chain after the first child: it is `Main`, the tip, with work 1. */
  ghost predicate AfterBlock1(c: Chain)
  {
    && Valid(c) && c.genesis == GenesisId
    && c.tip == Some(Block1Id)
    && GetLocation(c.store, GenesisId) == Some(Main)
    && GetLocation(c.store, Block1Id) == Some(Main)
    && TotalWork(c.store, GenesisId) == Some(0)
    && TotalWork(c.store, Block1Id) == Some(1)
    && HeaderOf(c.store, Block1Id) == Some(Block1().value.header)
    && forall k :: k != GenesisId && k != Block1Id ==> HeaderOf(c.store, k) == None
  }

  /** The chain after the second child: it is `Branch` with work 1, and the
      first child is still the `Main` tip. */
  ghost predicate AfterBlock2(c: Chain)
  {
    && Valid(c) && c.genesis == GenesisId
    && c.tip == Some(Block1Id)
    && GetLocation(c.store, GenesisId) == Some(Main)
    && GetLocation(c.store, Block1Id) == Some(Main)
    && GetLocation(c.store, Block2Id) == Some(Branch)
    && TotalWork(c.store, GenesisId) == Some(0)
    && TotalWork(c.store, Block1Id) == Some(1)
    && TotalWork(c.store, Block2Id) == Some(1)
    && HeaderOf(c.store, Block1Id) == Some(Block1().value.header)
    && HeaderOf(c.store, Block2Id) == Some(Block2().value.header)
    && forall k :: k != GenesisId && k != Block1Id && k != Block2Id ==> HeaderOf(c.store, k) == None
  }

  /** Genesis is added as `Main` and becomes the tip; the first child of
      genesis is added as `Main` and becomes the tip; the second child, with
      the same work, is added as `Branch` and the first child stays the
      tip. */
  method ShouldAddBlocks() returns (genesis: Outcome, first: Outcome, second: Outcome)
    ensures genesis.result == Added
    ensures GetLocation(genesis.chain.store, GenesisId) == Some(Main)
    ensures genesis.chain.tip == Some(GenesisId)
    ensures first.result == Added
    ensures GetLocation(first.chain.store, Block1Id) == Some(Main)
    ensures first.chain.tip == Some(Block1Id)
    ensures HeaderOf(first.chain.store, Block1Id) == Some(Block1().value.header)
    ensures second.result == Added
    ensures GetLocation(second.chain.store, Block2Id) == Some(Branch)
    ensures second.chain.tip == Some(Block1Id)
    ensures HeaderOf(second.chain.store, Block1Id) == Some(Block1().value.header)
    ensures AfterBlock2(second.chain)
  {
    genesis := AddGenesis();
    first := AddFirstChild(genesis.chain);
    second := AddSecondChild(first.chain);
  }

  method AddGenesis() returns (o: Outcome)
    ensures o.result == Added && AfterGenesis(o.chain)
  {
    o := HandleNewBlock(Start(), GenesisBlock(), 0, TxHash);
  }

  method AddFirstChild(c: Chain) returns (o: Outcome)
    requires AfterGenesis(c)
    ensures o.result == Added && AfterBlock1(o.chain)
  {
    assert HeaderOf(c.store, Block1Id) == None;
    assert Connected(c.store, GenesisId);
    var b := Block1();
    assert b.key == Block1Id && b.value.header.parent == GenesisId;
    assert c.tip.Some? && c.store.work[b.value.header.parent] + 1 == 1;
    o := HandleNewBlock(c, b, 1, TxHash);
    assert o.result == Added;
    assert TotalWork(o.chain.store, b.key) == Some(1);
    assert o.chain.tip == Some(Block1Id);
    assert GetLocation(o.chain.store, GenesisId) == Some(Main);
  }

  method AddSecondChild(c: Chain) returns (o: Outcome)
    requires AfterBlock1(c)
    ensures o.result == Added && AfterBlock2(o.chain)
  {
    assert HeaderOf(c.store, Block2Id) == None;
    assert Connected(c.store, GenesisId);
    var b := Block2();
    assert b.key == Block2Id && b.value.header.parent == GenesisId;
    assert c.store.work[b.value.header.parent] + 1 == c.store.work[Block1Id];
    o := HandleNewBlock(c, b, 1, TxHash);
    assert o.result == Added && o.chain.tip == c.tip;
  }

  /** The grandchild through the second child carries more work than the
      first child: the first child becomes `Branch`, the second child and
      the grandchild become `Main`, the grandchild is the tip, and genesis,
      where the two sides meet, stays `Main`. */
  method ShouldReorganize() returns (third: Outcome)
    ensures third.result == Added
    ensures GetLocation(third.chain.store, Block1Id) == Some(Branch)
    ensures GetLocation(third.chain.store, Block2Id) == Some(Main)
    ensures GetLocation(third.chain.store, Block3Id) == Some(Main)
    ensures GetLocation(third.chain.store, GenesisId) == Some(Main)
    ensures third.chain.tip == Some(Block3Id)
    ensures HeaderOf(third.chain.store, Block3Id) == Some(Block3().value.header)
  {
    var _, _, second := ShouldAddBlocks();
    third := AddGrandchild(second.chain);
  }

  method AddGrandchild(c: Chain) returns (o: Outcome)
    requires AfterBlock2(c)
    ensures o.result == Added
    ensures GetLocation(o.chain.store, Block1Id) == Some(Branch)
    ensures GetLocation(o.chain.store, Block2Id) == Some(Main)
    ensures GetLocation(o.chain.store, Block3Id) == Some(Main)
    ensures GetLocation(o.chain.store, GenesisId) == Some(Main)
    ensures o.chain.tip == Some(Block3Id)
    ensures HeaderOf(o.chain.store, Block3Id) == Some(Block3().value.header)
  {
    assert HeaderOf(c.store, Block3Id) == None;
    assert Connected(c.store, Block2Id);
    var b := Block3();
    assert b.key == Block3Id && b.value.header.parent == Block2Id;
    assert c.store.work[b.value.header.parent] + 1 == 2 && c.store.work[Block1Id] == 1;
    o := HandleNewBlock(c, b, 1, TxHash);
    assert o.result == Added && o.chain.tip == Some(b.key);
    var s' := Put(c.store, b, Branch, 2, TxHash);
    assert Reorganized(s', Block3Id, Block1Id, o.chain.store);
    Staged(c, s');
    OvertakeWalks(s');
  }

  /** The store with the grandchild written as `Branch` meets the
      reorganisation's walk requirements. */
  lemma Staged(c: Chain, s': Store)
    requires AfterBlock2(c)
    requires s' == Put(c.store, Block3(), Branch, 2, TxHash)
    ensures Block3Id in s'.headers && Block2Id in s'.headers && Block1Id in s'.headers
    ensures s'.headers[Block3Id].parent == Block2Id
    ensures s'.headers[Block2Id].parent == GenesisId
    ensures s'.headers[Block1Id].parent == GenesisId
    ensures Block3Id in s'.loc && s'.loc[Block3Id] == Branch
    ensures Block2Id in s'.loc && s'.loc[Block2Id] == Branch
    ensures Block1Id in s'.loc && s'.loc[Block1Id] == Main
    ensures GenesisId in s'.loc && s'.loc[GenesisId] == Main
  {
    assert GetLocation(s', GenesisId) == Some(Main);
    assert GetLocation(s', Block1Id) == Some(Main);
    assert GetLocation(s', Block2Id) == Some(Branch);
    assert HeaderOf(s', Block2Id) == Some(Block2().value.header);
    assert HeaderOf(s', Block1Id) == Some(Block1().value.header);
    assert HeaderOf(s', Block3Id) == Some(Block3().value.header);
  }
}

=== FILE: store_facts.dfy ===
/** Properties relating several block store operations: what a read returns
    after `Put`, which invariants `Put` keeps, and how the children queries
    split a child set. */
module StoreFacts {
  import opened Types
  import opened BlockStore

  /** The transactions of `ts` as a set. */
  function TxSet(ts: seq<Tx>): (r: set<Tx>)
    ensures forall t :: t in r <==> t in ts
  {
    set t | t in ts
  }

  /** Under an injective hash and a table that holds every transaction under
      its own identifier, the body stored under `hash(t)` is `t` itself. */
  lemma StoredUnderOwnHash(s: Store, hash: Tx -> Id, t: Tx)
    requires TxTableHashed(s, hash) && Injective(hash)
    requires hash(t) in s.txs
    ensures s.txs[hash(t)] == t
  {
    assert hash(s.txs[hash(t)]) == hash(t);
  }

  /** `Put` keeps every transaction stored under its own identifier. */
  lemma PutKeepsTxTableHashed(s: Store, b: Keyed<Block>, l: Location, w: int, hash: Tx -> Id)
    requires TxTableHashed(s, hash)
    ensures TxTableHashed(Put(s, b, l, w, hash), hash)
  {
  }

  /** `Put` keeps every block's transaction references resolvable. */
  lemma {:induction false} PutKeepsRefsResolve(s: Store, b: Keyed<Block>, l: Location, w: int, hash: Tx -> Id)
    requires RefsResolve(s)
    ensures RefsResolve(Put(s, b, l, w, hash))
  {
    var r := Put(s, b, l, w, hash);
    forall k, h | k in r.blockTxs && h in r.blockTxs[k]
      ensures h in r.txs
    {
      assert h in Members(r.blockTxs, k);
      if k == b.key {
        assert h in Members(s.blockTxs, k) || h in TxIds(b.value.transactions, hash);
      } else {
        assert h in Members(s.blockTxs, k);
      }
    }
  }

  /** `Put` gives the new block a location and a cumulative work. */
  lemma PutKeepsIndexed(s: Store, b: Keyed<Block>, l: Location, w: int, hash: Tx -> Id)
    requires Indexed(s)
    ensures Indexed(Put(s, b, l, w, hash))
  {
    var r := Put(s, b, l, w, hash);
    forall k | k in r.headers
      ensures k in r.loc && k in r.work
    {
      if k != b.key {
        assert HeaderOf(r, k) == HeaderOf(s, k);
        assert GetLocation(r, k) == GetLocation(s, k);
        assert TotalWork(r, k) == TotalWork(s, k);
      }
    }
  }

  /** After `Put`, every transaction of the block is stored under its own
      identifier. */
  lemma PutStoresOwnTxs(s: Store, b: Keyed<Block>, l: Location, w: int, hash: Tx -> Id)
    requires TxTableHashed(s, hash) && Injective(hash)
    ensures var r := Put(s, b, l, w, hash);
            forall t :: t in b.value.transactions ==> hash(t) in r.txs && r.txs[hash(t)] == t
  {
    var r := Put(s, b, l, w, hash);
    PutKeepsTxTableHashed(s, b, l, w, hash);
    forall t | t in b.value.transactions
      ensures hash(t) in r.txs && r.txs[hash(t)] == t
    {
      StoredUnderOwnHash(r, hash, t);
    }
  }

  /** After `Put` of a block not stored before, the block references exactly
      the identifiers of its transactions, and each of them resolves to one
      of its transactions. */
  lemma PutResolvesOwnTxs(s: Store, b: Keyed<Block>, l: Location, w: int, hash: Tx -> Id)
    requires TxTableHashed(s, hash) && Injective(hash)
    requires b.key !in s.blockTxs
    ensures var r := Put(s, b, l, w, hash);
            && Members(r.blockTxs, b.key) == TxIds(b.value.transactions, hash)
            && (forall t :: t in b.value.transactions ==> hash(t) in r.txs && r.txs[hash(t)] == t)
            && (forall h :: h in Members(r.blockTxs, b.key) ==>
                  h in r.txs && r.txs[h] in b.value.transactions && hash(r.txs[h]) == h)
  {
    var r := Put(s, b, l, w, hash);
    PutStoresOwnTxs(s, b, l, w, hash);
    forall h | h in Members(r.blockTxs, b.key)
      ensures h in r.txs && r.txs[h] in b.value.transactions && hash(r.txs[h]) == h
    {
      var t :| t in b.value.transactions && hash(t) == h;
    }
  }

  /** Reading a freshly written block gives back its header and exactly the
      set of its transactions (their order is not kept). */
  lemma {:induction false} GetBlockAfterPut(s: Store, b: Keyed<Block>, l: Location, w: int, hash: Tx -> Id)
    requires TxTableHashed(s, hash) && Injective(hash)
    requires b.key !in s.blockTxs
    ensures GetBlock(Put(s, b, l, w, hash), b.key)
            == Found(Keyed(b.key, BlockView(b.value.header, TxSet(b.value.transactions))))
  {
    var r := Put(s, b, l, w, hash);
    var ts := b.value.transactions;
    var ids := Members(r.blockTxs, b.key);
    PutResolvesOwnTxs(s, b, l, w, hash);
    var got := GetBlock(r, b.key);
    assert got.Found?;
    forall t | t in got.value.value.transactions
      ensures t in ts
    {
      var h :| h in ids && r.txs[h] == t;
    }
    forall t | t in ts
      ensures t in got.value.value.transactions
    {
      assert hash(t) in ids && r.txs[hash(t)] == t;
    }
    assert got.value.value.transactions == TxSet(ts);
  }

  /** The transactions of a freshly written block, each keyed by its hash. */
  lemma {:induction false} TransactionsAfterPut(s: Store, b: Keyed<Block>, l: Location, w: int, hash: Tx -> Id)
    requires TxTableHashed(s, hash) && Injective(hash)
    requires b.key !in s.blockTxs
    ensures Transactions(Put(s, b, l, w, hash), b.key)
            == Found(set t | t in b.value.transactions :: Keyed(hash(t), t))
  {
    var r := Put(s, b, l, w, hash);
    var ts := b.value.transactions;
    var ids := Members(r.blockTxs, b.key);
    PutResolvesOwnTxs(s, b, l, w, hash);
    var got := Transactions(r, b.key);
    assert got.Found?;
    var want := set t | t in ts :: Keyed(hash(t), t);
    forall kt | kt in got.value
      ensures kt in want
    {
      assert kt.key in ids && r.txs[kt.key] == kt.value;
      assert kt == Keyed(hash(kt.value), kt.value);
    }
    forall t | t in ts
      ensures Keyed(hash(t), t) in got.value
    {
      assert hash(t) in ids && r.txs[hash(t)] == t;
    }
    assert got.value == want;
  }

  /** A transaction identifier is stored once. When a second block carries
      a transaction `t'` with the identifier of the first block's `t`, even
      if `t'` is a different body, the second `Put` keeps the entry the first
      one wrote. That entry is `t` when the identifier was new and `t` is the
      first block's only transaction with it. */
  lemma SharedTxStoredOnce(s: Store, b1: Keyed<Block>, b2: Keyed<Block>, w1: int, w2: int,
                           l1: Location, l2: Location, hash: Tx -> Id, t: Tx, t': Tx)
    requires t in b1.value.transactions && t' in b2.value.transactions && hash(t') == hash(t)
    ensures var s1 := Put(s, b1, l1, w1, hash);
            var s2 := Put(s1, b2, l2, w2, hash);
            && hash(t) in s1.txs && hash(t) in s2.txs
            && s2.txs[hash(t)] == s1.txs[hash(t)]
            && (hash(t) in s.txs ==> s2.txs[hash(t)] == s.txs[hash(t)])
            && (hash(t) !in s.txs && (forall u :: u in b1.value.transactions && hash(u) == hash(t) ==> u == t) ==>
                  s2.txs[hash(t)] == t)
  {
  }

  /** With every reference resolvable, every stored block can be read. */
  lemma StoredBlockReadable(s: Store, k: Id)
    requires RefsResolve(s)
    requires k in s.headers
    ensures GetBlock(s, k).Found?
  {
    assert Members(s.blockTxs, k) <= s.txs.Keys;
  }

  /** The orphan and non-orphan children of a block split its child set. */
  lemma ChildrenPartition(s: Store, p: Id)
    ensures ChildKeys(s, p, true) + ChildKeys(s, p, false) == Members(s.children, p)
    ensures ChildKeys(s, p, true) !! ChildKeys(s, p, false)
  {
  }

  /** After `Put`, the block is among its parent's children: an orphan child
      exactly when it was written with the `Orphans` tag. */
  lemma PutAddsChild(s: Store, b: Keyed<Block>, l: Location, w: int, hash: Tx -> Id)
    ensures var r := Put(s, b, l, w, hash);
            && HasChildren(r, b.value.header.parent)
            && b.key in ChildKeys(r, b.value.header.parent, l == Orphans)
            && b.key !in ChildKeys(r, b.value.header.parent, l != Orphans)
  {
    var r := Put(s, b, l, w, hash);
    assert b.key in Members(r.children, b.value.header.parent);
  }

  /** Setting a location is seen by `IsLocation` on that block and by no
      other block. */
  lemma IsLocationAfterSet(s: Store, k: Id, l: Location, k': Id, l': Location)
    ensures IsLocation(SetLocation(s, k, l), k', l') <==> if k' == k then l == l' else IsLocation(s, k', l')
  {
  }
}

=== FILE: types.dfy ===
/** The entities the block store persists, and the small wrappers its
    lookups return. Identifiers are the byte strings the store keys every
    index by; how they are computed (hashing) is outside this model. */
module Types {

  newtype byte = x: int | 0 <= x < 256

  /** A content hash naming a block or a transaction. */
  type Id = seq<byte>

  datatype Option<T> = None | Some(value: T)

  /** A lookup either finds its value or reports that the key is unknown. */
  datatype Result<T> = Found(value: T) | NotFound

  /** A block header: the parent's identifier plus fields this core never
      interprets (version, merkle roots, timestamp, nonce, ...). */
  datatype Header = Header(parent: Id, fields: seq<byte>)

  /** A transaction body; only its identifier and its membership in blocks
      matter to the store. */
  datatype Tx = Tx(body: seq<byte>)

  datatype Block = Block(header: Header, transactions: seq<Tx>)

  /** A value together with the identifier it is stored under. */
  datatype Keyed<T> = Keyed(key: Id, value: T)

  /** A block as the store gives it back: the transaction references are kept
      in a hash set, so their original order is not recoverable. */
  datatype BlockView = BlockView(header: Header, transactions: set<Tx>)

  /** Where a block sits relative to the canonical chain. */
  datatype Location = Genesis | Main | Branch | Orphans

  /** The integer each tag is persisted as in the location table. */
  function Code(l: Location): (c: int)
    ensures 1 <= c <= 4
  {
    match l
    case Genesis => 1
    case Main => 2
    case Branch => 3
    case Orphans => 4
  }

  /** Distinct tags are persisted as distinct integers, so comparing codes is
      comparing tags. */
  lemma CodeInjective(a: Location, b: Location)
    ensures Code(a) == Code(b) <==> a == b
  {
  }
}
